=== FILE: README.md ===
# Zimmer gallery server: download throttling, admin lockout, photo cache

A Dafny model of the server-side logic of the zimmer-gallery HTTPS server
(`server.js`). Each request is one atomic transition over immutable state.
Time is a natural number of wall-clock milliseconds (`Date.now()`), and a
client is an opaque key (`Util.ClientId`). The model has five parts:

- **Cooldown** (`cooldown.dfy`). The `throttleDownload` middleware keeps a map
  from client to the moment its last download was admitted. A request is
  admitted when the client has no entry or at least 10 000 ms have passed.
  The client is stamped at admission, before the file handler runs, so a
  request that then answers 404 still starts the cooldown. A refusal reports
  the remaining whole seconds, rounded up.
- **Lockout** (`lockout.dfy`). `POST /api/verify-password` keeps a
  `{count, banUntil?}` record per client. While `now < banUntil` every attempt
  is refused and nothing changes. A password that passes the handler's
  comparison deletes the record. A failing one adds one to `count`, and from
  two failures on sets `banUntil = now + 12 h`. An expired ban never resets
  `count`, so the next failure re-bans at once. The comparison is modelled as
  written (`Lockout.Verify`), where an unset `ADMIN_PASSWORD` and a missing
  password compare equal, and as evidently intended
  (`Lockout.VerifyIntended`); see "Findings".
- **PhotoCache** (`photo_cache.dfy`). `updatePhotoCache` keeps the files whose
  names match `/\.(jpe?g|png|gif|webp)$/i`, in listing order. It maps each one
  to a record `{id, name, filename, path: "/images/<file>", size,
  lastModified}`. Any failure, whether of the directory read or of a `stat`
  of a surviving file, leaves the empty list. The directory listing and the
  stat results are inputs.
- **Pacing** (`pacing.dfy`). The `/download` body is read in chunks. When a
  chunk is read at `t` and `totalBytes` bytes have been read so far, its write
  waits `max(0, totalBytes*1000/rate - (t - start))` ms, with a rate of
  500 KiB/s. The final `res.end()` waits the same way. The arithmetic is exact
  (reals), and chunk read moments and contents are inputs.
- **Upload** (`upload.dfy`). The multer rules: a part is stored iff its MIME
  type starts with `image/`, under the name `UPLOAD_<original name>`. A file
  part under any field other than `photos` aborts the whole request, because
  `upload.array('photos')` accepts files from that field only. That rule
  belongs to multer, which is not part of this model; it is taken from
  multer's documented behaviour.

`util.dfy` holds the shared `Option`, ceiling division, `max` on reals and
ASCII lower-casing.

Behaviours of `server.js` worth knowing:
- After a failed rebuild the cache is empty. It does not fall back to the
  last good snapshot.
- Watch events are not coalesced. Each one schedules its own rebuild (the
  watcher itself is outside the model, see below).
- No `get(filename)` lookup exists. The download route checks the file with
  `fs.existsSync` instead.
- Nothing cancels scheduled writes when the connection closes (the model has
  no connection to close).
- The end of a stream is paced on the bytes actually read (`totalBytes`), not
  on the size reported by `stat`. These agree when the file does not change
  during the transfer.
- A `stat` that throws after the existence check answers 500, and so does a
  file name with a character above U+00FF, which `res.setHeader` refuses in
  `Content-Disposition`. In both cases the client has already been stamped by
  the cooldown.
- A ban is re-armed by every failure after it expires, not only by the second
  failure.

## Model

| member | source | states |
|---|---|---|
| Util.CeilDiv | server.js:46 | the result is the exact ceiling of `n / d`: `d*(r-1) < n <= d*r` |
| Cooldown.WaitSeconds | server.js:43-47 | for an elapsed time inside the window, the wait is at least 1 second, at most 10 once elapsed is non-negative, and is the ceiling of the remaining milliseconds over 1000 |
| Cooldown.Throttle | server.js:35-53 | admitted iff the client has no entry or `now - last >= 10000`; on admission only the client's stamp becomes `now`; on refusal the map is unchanged and `waitTime` is the rounded-up remaining seconds, 1..10 when the clock did not go back; no other client's entry changes |
| Cooldown.HandleDownload | server.js:90-104 | the route answers 429 iff the cooldown refuses, carrying the cooldown's `waitTime`, with the map unchanged; otherwise the client is stamped before the file is looked at, and the answer is 404 iff the file is missing, 500 iff its `stat` throws or the file name is not a valid header value, and the body iff the `stat` succeeds and the name is valid, with `Content-Length` the `stat` size |
| Cooldown.Disposition | server.js:102 | the `Content-Disposition` value is a valid header value iff the file name is: tab, printable ASCII and code points 0x80-0xFF only |
| Cooldown.WideNameIsServerError | server.js:90-104 | an admitted request for a present file whose name has a character above U+00FF, such as `ę`, gets a 500 and still stamps the client |
| Cooldown.NotFoundConsumesCooldown | server.js:90-98 | a request that ended in 404 or 500 still makes every request of the same client within the next 10 000 ms a 429 |
| Cooldown.WaitTimeIsExact | server.js:41-47 | waiting the reported number of whole seconds gets the client admitted, and waiting one second less does not |
| Cooldown.CooldownExample | server.js:39-51 | admitted at 0 ms, refused at 3000 ms with `waitTime` 7, admitted at 11000 ms |
| Cooldown.AdmissionsAreSpacedOut | server.js:39-51 | in any run of requests with non-decreasing times, two admitted downloads of one client are at least 10000 ms apart |
| Lockout.IsBanned | server.js:140 | the presence test on the deadline agrees with the handler's JavaScript truthiness test `banUntil && now < banUntil` |
| Lockout.BanMinutesLeft | server.js:141-144 | during a ban the reported minutes are at least 1 and are the ceiling of the remaining milliseconds over 60000 |
| Lockout.UnsetSecretAcceptsMissingPassword | server.js:148 | with no configured secret, a request without a password passes the handler's comparison as written |
| Lockout.PasswordAccepted | server.js:148 | only the configured secret is accepted, nothing is accepted when no secret is configured, and otherwise it agrees with the comparison as written |
| Lockout.Verify | server.js:134-162 | with the comparison `password === ADMIN_PASSWORD` as written: while banned every attempt, even the right password, is refused with the minutes left and the map unchanged; otherwise a password that compares equal deletes the client's entry and succeeds; any other adds exactly one to the count, sets `banUntil = now + 43200000` from count 2 on and keeps the old deadline below that; no other client's entry changes |
| Lockout.UnsetSecretHandlerAccepts | server.js:138-150 | as written, with no secret configured, a request without a password from a client that is not banned succeeds and deletes the client's entry |
| Lockout.VerifyIntended | server.js:134-162 | the same handler behaviour with the intended comparison `PasswordAccepted` in place of `===` |
| Lockout.UnsetSecretIntendedRejects | server.js:148-159 | with the intended comparison and no secret configured, every attempt from a client that is not banned fails and adds one to its count |
| Lockout.ConfiguredSecretAgrees | server.js:148 | once a secret is configured, the handler as written and the intended handler give the same reply and the same table |
| Lockout.VerifyPreservesWellFormed | server.js:152-159 | every stored record has count >= 1, has a deadline exactly when count >= 2, and that deadline is at least 12 h |
| Lockout.BanTimeLeftBounds | server.js:140-144 | a ban that started at `t0` reports between 1 and 720 minutes left at every moment before it ends |
| Lockout.BanHoldsUntilDeadline | server.js:138-146 | any run of attempts before the deadline, with any passwords, is refused throughout and leaves the map unchanged |
| Lockout.TwoFailuresBan | server.js:152-159 | from a clean state the first failure gives count 1 with no ban, and a second failure bans until exactly 12 h after it |
| Lockout.SuccessClearsCount | server.js:148-150 | a success between two failures deletes the entry, so the next failure counts as the first again |
| Lockout.ExpiredBanRebansOnNextFailure | server.js:140-157 | after a ban expires the count is still at least 2, so one more failure bans again at once |
| Lockout.LockoutExample | server.js:138-159 | failures at 0 ms and 1 ms ban until 1 + 43200000, and an attempt one hour later is refused with 660 minutes left |
| PhotoCache.IsImageName | server.js:59 | the case-insensitive suffix test passes only names of at least four characters; its exact meaning is `PhotoCache.ImageNameIffPattern` |
| PhotoCache.ImageNameIffPattern | server.js:58-60 | the suffix test on the lower-cased name accepts exactly the names the pattern matches: a dot followed by `jpg`, `jpeg`, `png`, `gif` or `webp` in any ASCII case up to the end |
| PhotoCache.ImageEntries | server.js:58-60 | the filter keeps exactly the entries whose name passes, and never more entries than the listing has |
| PhotoCache.ImageEntriesConcat | server.js:58-60 | the filter keeps listing order: filtering a concatenation concatenates the filtered parts |
| PhotoCache.ToRecord | server.js:62-73 | a record has `id = name = filename` = the file name, `path = "/images/" + filename`, and carries the `stat` size and modification time |
| PhotoCache.Rebuild | server.js:55-78 | a failed listing or a failed stat of a surviving file gives `[]`; otherwise one well-shaped record per surviving entry, in listing order, carrying that entry's size and modification time; never longer than the listing |
| PhotoCache.RebuildListsExactlyImages | server.js:57-73 | after a successful rebuild a name is in the snapshot iff the directory has a file of that name and the name passes the pattern |
| PhotoCache.RebuildKeepsNamesUnique | server.js:62-73 | distinct names in the directory give distinct record file names |
| PhotoCache.RebuildExample | server.js:55-78 | a listing `a.JPG`, `notes.txt` (stat failing), `b.webp` gives exactly the two picture records, in that order |
| Pacing.ExpectedTime | server.js:100-113 | the ideal transfer time is exact at 500 KiB/s: `ms * 512 == totalBytes`, that is 512 bytes per millisecond |
| Pacing.PaceDelay | server.js:112-114 | the delay is never negative, never lets an event fire before the ideal curve, and is zero unless the event would otherwise run ahead of it |
| Pacing.DelayLandsOnCurve | server.js:112-118 | an event at `now` that waits the pacing delay fires exactly at the later of `now` and the moment the ideal transfer reaches `totalBytes` |
| Pacing.FireTime | server.js:110-119 | a chunk's write fires no earlier than the chunk was read, no earlier than the ideal transfer reaches the end of that chunk, and at one of those two moments |
| Pacing.EndTime | server.js:121-129 | `res.end()` fires no earlier than the `end` event, no earlier than the ideal time for every byte read, and at one of those two moments |
| Pacing.Stream | server.js:106-129 | one write per chunk, in read order, each carrying exactly that chunk's bytes and firing at the chunk's `FireTime`; final `totalBytes` is the sum of the chunk lengths; the bytes written are the chunks' bytes in order; `res.end()` fires at `EndTime` |
| Pacing.WritesFireInReadOrder | server.js:110-119 | when chunks are read in order after the start, their writes are scheduled in non-decreasing time order |
| Pacing.EndAfterLastWrite | server.js:121-129 | `res.end()` fires no earlier than the last write and no earlier than the ideal time for the whole body |
| Pacing.RateCapHolds | server.js:110-119 | at every moment, the bytes whose writes have fired are no more than the chunks read and at most 512 per millisecond since the start, whatever the read moments |
| Pacing.PacingExample | server.js:100-129 | two 64 KiB chunks read at 0 ms and 5 ms are written at 128 ms and 256 ms, and the response ends at 256 ms |
| Upload.StoredName | server.js:23-27 | the stored name starts with `UPLOAD_`, ends with the original name, and is exactly their lengths together |
| Upload.StoredNameRoundTrip | server.js:23-27 | dropping the `UPLOAD_` prefix from the stored name gives back the original name |
| Upload.StoredNameInjective | server.js:23-27 | two uploads get the same stored name only when their original names are equal |
| Upload.Accepts | server.js:30-33 | a part is accepted iff its (already normalised) MIME type is `image/` followed by anything |
| Upload.StoredNamesConcat | server.js:21-33 | stored names keep part order: the names of two batches of parts are those of the first batch followed by those of the second |
| Upload.StoredNames | server.js:30-33 | the stored names of the `photos` parts of one request are exactly those of the parts whose MIME type starts with `image/`, never more names than parts |
| Upload.HandleUpload | server.js:164-167 | the request is aborted iff some file part is under a field other than `photos`; otherwise the stored names are exactly the upload names of the accepted parts, in part order, never more than the parts |
| Upload.ForeignFieldStoresNothing | server.js:164 | an accepted picture alone is stored, but the same picture next to one part under another field stores nothing |
| Upload.StoredNameKeepsImageness | server.js:21-33 | the stored name passes the cache's pattern iff the original name does |
| Upload.UploadedImageAppearsInCache | server.js:164-167 | an accepted upload with a picture name that the directory lists appears in the next successful rebuild with path `/images/UPLOAD_<name>` |

## Left out

- The client side, `script.js`: DOM updates, `fetch` calls, EXIF display and the countdown timer. It holds no server state.
- Express, HTTPS and TLS setup, and the bytes of the response headers. The one header that can fail, `Content-Disposition`, is modelled by its validity test only (`Cooldown.Disposition`).
- File-system calls (`readdirSync`, `statSync`, `existsSync`, `createReadStream`, multer's disk writes). Their results are inputs: the listing with per-file stat results, the existence flag, and the chunk sequence.
- The chokidar watcher and the `setTimeout(updatePhotoCache, 100)` calls. They only decide when a rebuild runs, and the rebuild itself is modelled.
- Interleaving of concurrent requests. Each request is one atomic transition, so the same-client race between check and stamp is not modelled.
- Read errors during a transfer. The read stream has no `error` listener, so a failed read (for example `/download/%2e`, where `existsSync` holds for the image directory and reading it fails) is an uncaught exception that ends the process and loses every cooldown and ban. The chunk sequence given to `Pacing.Stream` always reads to the end, so this path is not modelled.
- Floating point. Quotients and ceilings are exact. `(banUntil - now) / 1000 / 60` is modelled as one exact division by 60000. Pacing moments and delays are exact reals, so start and read moments need not be whole milliseconds.
- `setTimeout` delay clamping, truncation of fractional delays to whole milliseconds, timing against the event loop's cached clock, and tie-breaking between timers that fire at the same moment. The pacing results hold for exact delays.
- The multipart parser's normalisation: it lower-cases the MIME type and drops its parameters, and keeps only the base name of the client's file name. `originalName` and `mimeType` stand for its outputs.
- `path.join`, path traversal, and the derivation of the client id from `req.ip` behind a trusted proxy.
- Time before the epoch: `Date.now()` is a natural number. This is also why a ban deadline is never the falsy value 0.
- Pacing.WritesFireInReadOrder: proves non-decreasing fire times only. Delivery in read order also needs the event loop to fire equal-time timers in scheduling order, which is not modelled.
- Lockout.Verify: a non-string JSON `password` is modelled as a supplied string that differs from the secret. Strict equality rejects both the same way.

## Findings

| source | as written | input that shows it | evidently intended | confidence | as-written member | corrected member |
|---|---|---|---|---|---|---|
| server.js:148 | `req.body.password === process.env.ADMIN_PASSWORD` compares two values that may both be `undefined` | `ADMIN_PASSWORD` not set, request body `{}` | no password is accepted while no secret is configured | medium; not executed | Lockout.UnsetSecretHandlerAccepts | Lockout.VerifyIntended |

=== FILE: cooldown.dfy ===
/** The per-client download cooldown (`throttleDownload`) and the admission
    part of the `/download/:filename` route.  Time is wall-clock milliseconds
    since the epoch; the client id is an opaque key. */
module Cooldown {
  import opened Util

  /** Minimum gap between two admitted downloads of one client. */
  const CooldownMs: nat := 10000

  /** Client -> time at which its last download was admitted. */
  type Cooldowns = map<ClientId, nat>

  datatype Decision = Admit | Reject(waitTime: int)

  datatype Throttled = Throttled(decision: Decision, after: Cooldowns)

  /** Whole seconds, rounded up, until `elapsed` reaches the cooldown. */
  function WaitSeconds(elapsed: int): (w: int)
    requires elapsed < CooldownMs
    ensures w >= 1
    ensures 0 <= elapsed ==> w <= 10
    ensures 1000 * (w - 1) < CooldownMs - elapsed <= 1000 * w
  {
    CeilDiv(CooldownMs - elapsed, 1000)
  }

  /** One request through the cooldown middleware: admit it and stamp the
      client with `now`, or reject it with the remaining whole seconds. */
  function Throttle(m: Cooldowns, client: ClientId, now: nat): (r: Throttled)
    ensures r.decision.Admit? <==> (client !in m || now - m[client] >= CooldownMs)
    ensures r.decision.Admit? ==> r.after == m[client := now]
    ensures r.decision.Reject? ==>
              && r.after == m
              && client in m
              && 1000 * (r.decision.waitTime - 1) < CooldownMs - (now - m[client]) <= 1000 * r.decision.waitTime
    ensures r.decision.Reject? && m[client] <= now ==> 1 <= r.decision.waitTime <= 10
    ensures forall c :: c != client ==> (c in r.after <==> c in m)
    ensures forall c :: c != client && c in m ==> r.after[c] == m[c]
  {
    if client in m && now - m[client] < CooldownMs then
      Throttled(Reject(WaitSeconds(now - m[client])), m)
    else
      Throttled(Admit, m[client := now])
  }

  /** What the `/download/:filename` route answers before streaming starts:
      429 with the wait, 404, 500 when `fs.statSync` or `res.setHeader`
      throws (Express turns the exception into its default error response),
      or the file's body with its `stat` size as `Content-Length`. */
  datatype DownloadReply = RateLimited(waitTime: int) | NotFound | ServerError | Stream(contentLength: nat)

  datatype Download = Download(reply: DownloadReply, after: Cooldowns)

  /** The file-system view of the requested path: `fs.existsSync` is false,
      or it is true and `fs.statSync` then throws, or it succeeds with a size. */
  datatype FileProbe = Missing | Unstatable | Present(size: nat)

  /** A character Node accepts in a header value: tab, printable ASCII, or a
      code point from 0x80 to 0xFF. */
  predicate HeaderChar(c: char)
  {
    c == '\t' || (' ' <= c <= '~') || (0x80 <= c as int <= 0xFF)
  }

  /** `res.setHeader` accepts the value iff every character is allowed; it
      throws otherwise. */
  predicate ValidHeaderValue(v: string)
  {
    forall i :: 0 <= i < |v| ==> HeaderChar(v[i])
  }

  /** The `Content-Disposition` value the route sets for `filename`. */
  function Disposition(filename: string): (v: string)
    ensures ValidHeaderValue(v) <==> ValidHeaderValue(filename)
  {
    var pre := "attachment; filename=\"";
    assert ValidHeaderValue(pre);
    var v := pre + filename + "\"";
    assert forall i :: 0 <= i < |filename| ==> v[|pre| + i] == filename[i];
    v
  }

  /** The route: the cooldown middleware runs first, then the existence check
      and the `stat` of the requested file, then the response headers. */
  function HandleDownload(m: Cooldowns, client: ClientId, now: nat, filename: string, file: FileProbe): (r: Download)
    ensures r.reply.RateLimited? <==> Throttle(m, client, now).decision.Reject?
    ensures r.reply.RateLimited? ==> r.reply.waitTime == Throttle(m, client, now).decision.waitTime
    ensures r.reply.RateLimited? ==> r.after == m
    // an admitted request is stamped before the file is even looked at
    ensures !r.reply.RateLimited? ==> r.after == m[client := now]
    ensures r.reply.NotFound? <==> !r.reply.RateLimited? && file.Missing?
    ensures r.reply.ServerError? <==>
              !r.reply.RateLimited? && (file.Unstatable? || (file.Present? && !ValidHeaderValue(filename)))
    ensures r.reply.Stream? <==> !r.reply.RateLimited? && file.Present? && ValidHeaderValue(filename)
    ensures r.reply.Stream? ==> r.reply.contentLength == file.size
  {
    var t := Throttle(m, client, now);
    match t.decision
    case Reject(w) => Download(RateLimited(w), t.after)
    case Admit =>
      var reply := match file
        case Missing => NotFound
        case Unstatable => ServerError
        case Present(size) => if ValidHeaderValue(Disposition(filename)) then Stream(size) else ServerError;
      Download(reply, t.after)
  }

  /** A file name outside Latin-1, such as one with `ę`, never downloads: the
      header throws, the client gets a 500, and its cooldown has started. */
  lemma WideNameIsServerError(m: Cooldowns, client: ClientId, now: nat, filename: string, size: nat, k: nat)
    requires Throttle(m, client, now).decision.Admit?
    requires k < |filename| && filename[k] as int > 0xFF
    ensures HandleDownload(m, client, now, filename, Present(size)).reply == ServerError
    ensures HandleDownload(m, client, now, filename, Present(size)).after == m[client := now]
  {
    assert !HeaderChar(filename[k]);
  }

  /** A request that ends in 404 or 500 still starts the client's cooldown: a
      second request inside the window is refused although nothing was
      downloaded. */
  lemma NotFoundConsumesCooldown(m: Cooldowns, client: ClientId, now: nat, later: nat, name: string, file: FileProbe, next: FileProbe)
    requires HandleDownload(m, client, now, name, file).reply.NotFound? || HandleDownload(m, client, now, name, file).reply.ServerError?
    requires now <= later < now + CooldownMs
    ensures HandleDownload(HandleDownload(m, client, now, name, file).after, client, later, name, next).reply.RateLimited?
  {
  }

  /** The reported wait is exact: waiting that many whole seconds gets the
      client admitted, and waiting one second less does not. */
  lemma WaitTimeIsExact(m: Cooldowns, client: ClientId, now: nat)
    requires Throttle(m, client, now).decision.Reject?
    ensures var w := Throttle(m, client, now).decision.waitTime;
            && Throttle(m, client, now + 1000 * w).decision.Admit?
            && (w >= 1 && now + 1000 * (w - 1) >= 0 ==>
                  Throttle(m, client, now + 1000 * (w - 1)).decision.Reject?)
  {
  }

  /** Worked example: admitted at 0 ms, refused at 3 000 ms with seven
      seconds to wait, admitted again at 11 000 ms. */
  lemma CooldownExample(m: Cooldowns, client: ClientId)
    requires client !in m
    ensures var a := Throttle(m, client, 0);
            && a.decision.Admit?
            && Throttle(a.after, client, 3000).decision == Reject(7)
            && Throttle(Throttle(a.after, client, 3000).after, client, 11000).decision.Admit?
  {
  }

  // ---------------------------------------------------------------------
  // A run of requests, each handled atomically in arrival order.

  datatype Request = Request(client: ClientId, at: nat)

  /** Admission flags of a run of requests, and the final table. */
  function Run(m: Cooldowns, reqs: seq<Request>): (r: (seq<bool>, Cooldowns))
    ensures |r.0| == |reqs|
    decreases |reqs|
  {
    if |reqs| == 0 then ([], m)
    else
      var t := Throttle(m, reqs[0].client, reqs[0].at);
      var rest := Run(t.after, reqs[1..]);
      ([t.decision.Admit?] + rest.0, rest.1)
  }

  predicate NonDecreasingTimes(reqs: seq<Request>)
  {
    forall i, j :: 0 <= i < j < |reqs| ==> reqs[i].at <= reqs[j].at
  }

  /** After a run, every client whose request was admitted is in the table,
      stamped no earlier than that admission (when times do not go back). */
  lemma {:induction false} RunRemembersAdmissions(m: Cooldowns, reqs: seq<Request>, i: nat)
    requires NonDecreasingTimes(reqs)
    requires i < |reqs| && Run(m, reqs).0[i]
    ensures reqs[i].client in Run(m, reqs).1
    ensures Run(m, reqs).1[reqs[i].client] >= reqs[i].at
    decreases |reqs|
  {
    var t := Throttle(m, reqs[0].client, reqs[0].at);
    if i == 0 {
      RunNeverForgets(t.after, reqs[1..], reqs[0].client, reqs[0].at);
    } else {
      assert NonDecreasingTimes(reqs[1..]);
      RunRemembersAdmissions(t.after, reqs[1..], i - 1);
    }
  }

  /** A client present in the table stays present, and its stamp never falls
      below any bound that all later request times respect. */
  lemma {:induction false} RunNeverForgets(m: Cooldowns, reqs: seq<Request>, c: ClientId, bound: nat)
    requires c in m && m[c] >= bound
    requires forall k :: 0 <= k < |reqs| ==> reqs[k].at >= bound
    ensures c in Run(m, reqs).1 && Run(m, reqs).1[c] >= bound
    decreases |reqs|
  {
    if |reqs| > 0 {
      var t := Throttle(m, reqs[0].client, reqs[0].at);
      RunNeverForgets(t.after, reqs[1..], c, bound);
    }
  }

  /** The security property of the cooldown: when request times do not go
      back, two admitted downloads of the same client are at least the
      cooldown apart. */
  lemma AdmissionsAreSpacedOut(m: Cooldowns, reqs: seq<Request>, i: nat, j: nat)
    requires NonDecreasingTimes(reqs)
    requires i < j < |reqs|
    requires reqs[i].client == reqs[j].client
    requires Run(m, reqs).0[i] && Run(m, reqs).0[j]
    ensures reqs[j].at - reqs[i].at >= CooldownMs
  {
    var pre, post := reqs[..j], reqs[j..];
    assert reqs == pre + post;
    RunAppend(m, pre, post);
    var mid := Run(m, pre).1;
    // The table just before request j remembers admission i ...
    assert NonDecreasingTimes(pre);
    RunRemembersAdmissions(m, pre, i);
    // ... and request j is judged against that table.
    assert post[0] == reqs[j];
    assert Run(m, reqs).0[j] == Throttle(mid, reqs[j].client, reqs[j].at).decision.Admit?;
  }

  /** Running two runs back to back is running their concatenation. */
  lemma {:induction false} RunAppend(m: Cooldowns, a: seq<Request>, b: seq<Request>)
    ensures Run(m, a + b) == (Run(m, a).0 + Run(Run(m, a).1, b).0, Run(Run(m, a).1, b).1)
    decreases |a|
  {
    if |a| == 0 {
      assert a + b == b;
      assert Run(m, a) == ([], m);
      assert [] + Run(m, b).0 == Run(m, b).0;
    } else {
      var t := Throttle(m, a[0].client, a[0].at);
      assert (a + b)[0] == a[0];
      assert (a + b)[1..] == a[1..] + b;
      RunAppend(t.after, a[1..], b);
      var head := [t.decision.Admit?];
      var p, q := Run(t.after, a[1..]).0, Run(Run(m, a).1, b).0;
      assert head + (p + q) == (head + p) + q;
    }
  }
}

=== FILE: lockout.dfy ===
/** Brute-force lockout of `POST /api/verify-password`: a per-client record
    of failed attempts with an optional ban deadline. */
module Lockout {
  import opened Util

  /** Failures after which a client is banned. */
  const BanThreshold: nat := 2
  /** Length of a ban: twelve hours in milliseconds. */
  const BanDurationMs: nat := 12 * 60 * 60 * 1000
  const MsPerMinute: nat := 60000

  /** `{count, banUntil?}` kept per client. */
  datatype Attempt = Attempt(count: nat, banUntil: Option<nat>)

  type Attempts = map<ClientId, Attempt>

  datatype Reply = Banned(banTimeLeft: int) | Verified(success: bool)

  datatype Verification = Verification(reply: Reply, after: Attempts)

  /** JavaScript truthiness of an optional millisecond deadline: `undefined`
      and `0` are falsy. */
  predicate Truthy(deadline: Option<nat>)
  {
    deadline.Some? && deadline.value != 0
  }

  /** The ban test as the handler writes it, `attempt.banUntil && now <
      attempt.banUntil`, decided on presence of the deadline alone: no
      natural `now` lies below a deadline of 0, so presence and truthiness
      agree. */
  function IsBanned(a: Attempt, now: nat): (b: bool)
    ensures b <==> Truthy(a.banUntil) && now < a.banUntil.value
  {
    a.banUntil.Some? && now < a.banUntil.value
  }

  /** Whole minutes, rounded up, left on a ban. */
  function BanMinutesLeft(banUntil: nat, now: nat): (mins: int)
    requires now < banUntil
    ensures mins >= 1
    ensures MsPerMinute * (mins - 1) < banUntil - now <= MsPerMinute * mins
  {
    CeilDiv(banUntil - now, MsPerMinute)
  }

  /** The comparison exactly as the handler writes it: `password ===
      ADMIN_PASSWORD`, where either side may be `undefined`. */
  predicate PasswordMatchesAsWritten(supplied: Option<string>, configured: Option<string>)
  {
    supplied == configured
  }

  /** Counterexample: with no configured secret, a request body without a
      password field is accepted as the admin password. */
  lemma UnsetSecretAcceptsMissingPassword()
    ensures PasswordMatchesAsWritten(None, None)
  {
  }

  /** The comparison as evidently intended: only the configured secret is
      accepted, and nothing is accepted when no secret is configured. */
  function PasswordAccepted(supplied: Option<string>, configured: Option<string>): (ok: bool)
    ensures configured.None? ==> !ok
    ensures ok ==> supplied.Some?
    ensures configured.Some? ==> (ok <==> PasswordMatchesAsWritten(supplied, configured))
  {
    configured.Some? && supplied == configured
  }

  /** The state a client starts from when it has no entry. */
  function EntryOf(m: Attempts, client: ClientId): Attempt
  {
    if client in m then m[client] else Attempt(0, None)
  }

  /** What one request to the verify endpoint does, given whether the
      handler's password comparison `accepted` the request. */
  ghost predicate HandlerSpec(m: Attempts, client: ClientId, now: nat, accepted: bool, r: Verification)
  {
    // a current ban rejects every attempt and changes nothing
    && (client in m && IsBanned(m[client], now) ==>
          && r.after == m
          && r.reply == Banned(BanMinutesLeft(m[client].banUntil.value, now)))
    // not banned, accepted: the client's entry disappears
    && (!(client in m && IsBanned(m[client], now)) && accepted ==>
          && r.reply == Verified(true)
          && client !in r.after
          && r.after == m - {client})
    // not banned, rejected: one more failure, banned from the threshold on
    && (!(client in m && IsBanned(m[client], now)) && !accepted ==>
          && r.reply == Verified(false)
          && client in r.after
          && r.after[client].count == EntryOf(m, client).count + 1
          && (r.after[client].count >= BanThreshold ==> r.after[client].banUntil == Some(now + BanDurationMs))
          && (r.after[client].count < BanThreshold ==> r.after[client].banUntil == EntryOf(m, client).banUntil))
    && (r.reply.Verified? && r.reply.success <==> !(client in m && IsBanned(m[client], now)) && accepted)
    // no other client is affected
    && (forall c :: c != client ==> (c in r.after <==> c in m))
    && (forall c :: c != client && c in m ==> r.after[c] == m[c])
  }

  /** The handler body once the comparison has been made. */
  function Handle(m: Attempts, client: ClientId, now: nat, accepted: bool): (r: Verification)
    ensures HandlerSpec(m, client, now, accepted, r)
  {
    if client in m && IsBanned(m[client], now) then
      Verification(Banned(BanMinutesLeft(m[client].banUntil.value, now)), m)
    else if accepted then
      Verification(Verified(true), m - {client})
    else
      var current := EntryOf(m, client);
      var count := current.count + 1;
      var banUntil := if count >= BanThreshold then Some(now + BanDurationMs) else current.banUntil;
      Verification(Verified(false), m[client := Attempt(count, banUntil)])
  }

  /** One request to the verify endpoint, handled atomically, with the
      comparison exactly as written. */
  function Verify(m: Attempts, client: ClientId, now: nat, supplied: Option<string>, configured: Option<string>): (r: Verification)
    ensures HandlerSpec(m, client, now, PasswordMatchesAsWritten(supplied, configured), r)
  {
    Handle(m, client, now, PasswordMatchesAsWritten(supplied, configured))
  }

  /** The same request with the comparison as evidently intended. */
  function VerifyIntended(m: Attempts, client: ClientId, now: nat, supplied: Option<string>, configured: Option<string>): (r: Verification)
    ensures HandlerSpec(m, client, now, PasswordAccepted(supplied, configured), r)
  {
    Handle(m, client, now, PasswordAccepted(supplied, configured))
  }

  /** The handler as written: with no secret configured, a request without a
      password from a client that is not banned succeeds and wipes the
      client's failures. */
  lemma UnsetSecretHandlerAccepts(m: Attempts, client: ClientId, now: nat)
    requires !(client in m && IsBanned(m[client], now))
    ensures Verify(m, client, now, None, None).reply == Verified(true)
    ensures Verify(m, client, now, None, None).after == m - {client}
  {
  }

  /** The intended handler: with no secret configured, every attempt from a
      client that is not banned fails and counts against it. */
  lemma UnsetSecretIntendedRejects(m: Attempts, client: ClientId, now: nat, supplied: Option<string>)
    requires !(client in m && IsBanned(m[client], now))
    ensures VerifyIntended(m, client, now, supplied, None).reply == Verified(false)
    ensures VerifyIntended(m, client, now, supplied, None).after[client].count == EntryOf(m, client).count + 1
  {
  }

  /** Once a secret is configured, the handler as written and the intended
      one behave identically. */
  lemma ConfiguredSecretAgrees(m: Attempts, client: ClientId, now: nat, supplied: Option<string>, configured: Option<string>)
    requires configured.Some?
    ensures Verify(m, client, now, supplied, configured) == VerifyIntended(m, client, now, supplied, configured)
  {
  }

  /** The shape every stored entry has: at least one failure, and a ban
      deadline exactly from the threshold on, never earlier than one ban
      length after the epoch. */
  predicate WellFormed(a: Attempt)
  {
    && a.count >= 1
    && (a.count >= BanThreshold <==> a.banUntil.Some?)
    && (a.banUntil.Some? ==> a.banUntil.value >= BanDurationMs)
  }

  predicate AllWellFormed(m: Attempts)
  {
    forall c :: c in m ==> WellFormed(m[c])
  }

  lemma VerifyPreservesWellFormed(m: Attempts, client: ClientId, now: nat, supplied: Option<string>, configured: Option<string>)
    requires AllWellFormed(m)
    ensures AllWellFormed(Verify(m, client, now, supplied, configured).after)
  {
  }

  /** A ban that started at `t0` reports between 1 and 720 minutes left at
      any moment before it ends. */
  lemma BanTimeLeftBounds(t0: nat, now: nat)
    requires t0 <= now < t0 + BanDurationMs
    ensures 1 <= BanMinutesLeft(t0 + BanDurationMs, now) <= 720
  {
  }

  /** Any run of attempts before the deadline, right password or not, is
      refused and leaves the table untouched. */
  lemma {:induction false} BanHoldsUntilDeadline(m: Attempts, client: ClientId, times: seq<nat>, supplied: seq<Option<string>>, configured: Option<string>)
    requires client in m && m[client].banUntil.Some?
    requires |supplied| == |times|
    requires forall k :: 0 <= k < |times| ==> times[k] < m[client].banUntil.value
    ensures VerifyAll(m, client, times, supplied, configured) == (seq(|times|, k => false), m)
    decreases |times|
  {
    if |times| == 0 {
      assert seq(|times|, k => false) == [];
    } else {
      var v := Verify(m, client, times[0], supplied[0], configured);
      assert v.after == m && v.reply.Banned?;
      BanHoldsUntilDeadline(m, client, times[1..], supplied[1..], configured);
      assert seq(|times|, k => false) == [false] + seq(|times| - 1, k => false);
    }
  }

  /** Successes of a run of attempts by one client, and the final table. */
  function VerifyAll(m: Attempts, client: ClientId, times: seq<nat>, supplied: seq<Option<string>>, configured: Option<string>): (r: (seq<bool>, Attempts))
    requires |supplied| == |times|
    ensures |r.0| == |times|
    decreases |times|
  {
    if |times| == 0 then ([], m)
    else
      var v := Verify(m, client, times[0], supplied[0], configured);
      var rest := VerifyAll(v.after, client, times[1..], supplied[1..], configured);
      ([v.reply == Verified(true)] + rest.0, rest.1)
  }

  /** From a clean state the first failure leaves the client unbanned, and a
      second failure bans it for exactly twelve hours from that moment. */
  lemma TwoFailuresBan(m: Attempts, client: ClientId, t1: nat, t2: nat, wrong1: Option<string>, wrong2: Option<string>, configured: Option<string>)
    requires client !in m
    requires wrong1 != configured && wrong2 != configured
    ensures var first := Verify(m, client, t1, wrong1, configured).after;
            && first[client] == Attempt(1, None)
            && !IsBanned(first[client], t2)
            && Verify(first, client, t2, wrong2, configured).after[client]
                 == Attempt(2, Some(t2 + BanDurationMs))
  {
  }

  /** A success between two failures wipes the first one: the next failure
      counts as the first again. */
  lemma SuccessClearsCount(m: Attempts, client: ClientId, t1: nat, t2: nat, t3: nat, wrong: Option<string>, configured: Option<string>)
    requires client !in m
    requires wrong != configured
    ensures var a := Verify(m, client, t1, wrong, configured).after;
            var b := Verify(a, client, t2, configured, configured).after;
            && client !in b
            && Verify(b, client, t3, wrong, configured).after[client] == Attempt(1, None)
  {
  }

  /** An expired ban keeps its count, so one more failure re-bans at once
      instead of granting a fresh first attempt. */
  lemma ExpiredBanRebansOnNextFailure(m: Attempts, client: ClientId, now: nat, wrong: Option<string>, configured: Option<string>)
    requires AllWellFormed(m)
    requires client in m && m[client].banUntil.Some? && now >= m[client].banUntil.value
    requires wrong != configured
    ensures var a := Verify(m, client, now, wrong, configured).after[client];
            && a.count >= BanThreshold + 1
            && a.banUntil == Some(now + BanDurationMs)
            && IsBanned(a, now)
  {
  }

  /** Worked example: failures at 0 ms and 1 ms, then a try one hour later
      is refused with 660 minutes left. */
  lemma LockoutExample(m: Attempts, client: ClientId, configured: Option<string>, wrong: Option<string>, right: Option<string>)
    requires client !in m
    requires wrong != configured
    ensures var a := Verify(m, client, 0, wrong, configured);
            var b := Verify(a.after, client, 1, wrong, configured);
            && a.reply == Verified(false) && b.reply == Verified(false)
            && b.after[client].banUntil == Some(1 + 43200000)
            && Verify(b.after, client, 1 + 3600000, right, configured).reply == Banned(660)
  {
  }
}

=== FILE: pacing.dfy ===
/** Bandwidth pacing of the `/download/:filename` body.  The file arrives as
    chunks, each read at some wall-clock moment; every chunk's write is
    deferred until the ideal linear transfer at the throttle rate would have
    reached it, and the end of the response gets the same treatment.  Moments
    and delays are JavaScript numbers of milliseconds, modelled as exact
    reals. */
module Pacing {
  import opened Util

  newtype Byte = b: int | 0 <= b < 256

  /** Milliseconds the ideal transfer at the throttle rate needs for `total`
      bytes: `(totalBytes / throttleRate) * 1000` with a rate of 500 KiB per
      second, which is exactly 512 bytes per millisecond. */
  function ExpectedTime(total: nat): (ms: real)
    ensures ms >= 0.0
    ensures ms * 512.0 == total as real
  {
    (total as real / (500.0 * 1024.0)) * 1000.0
  }

  /** `Math.max(0, expectedTime - elapsed)` for an event at `now` once `total`
      bytes have been read. */
  function PaceDelay(start: real, now: real, total: nat): (d: real)
    ensures d >= 0.0
    ensures now + d >= start + ExpectedTime(total)
    ensures d > 0.0 ==> now + d == start + ExpectedTime(total)
  {
    MaxReal(0.0, ExpectedTime(total) - (now - start))
  }

  /** Waiting the pacing delay from `now` lands exactly on the later of `now`
      and the moment the ideal transfer reaches `total` bytes. */
  lemma DelayLandsOnCurve(start: real, now: real, total: nat)
    ensures now + PaceDelay(start, now, total) == MaxReal(now, start + ExpectedTime(total))
  {
  }

  datatype Chunk = Chunk(readAt: real, data: seq<Byte>)

  /** A scheduled `res.write(chunk)`, firing at `fireAt`. */
  datatype Write = Write(fireAt: real, data: seq<Byte>)

  /** The plan of one response: the writes in scheduling order, the moment
      `res.end()` fires, and the final `totalBytes`. */
  datatype Transfer = Transfer(writes: seq<Write>, endAt: real, totalBytes: nat)

  /** The bytes of the chunks, in read order. */
  function Flatten(chunks: seq<Chunk>): seq<Byte>
  {
    if |chunks| == 0 then [] else Flatten(chunks[..|chunks| - 1]) + chunks[|chunks| - 1].data
  }

  /** The bytes the client receives when the writes fire in the listed order. */
  function Delivered(writes: seq<Write>): seq<Byte>
  {
    if |writes| == 0 then [] else Delivered(writes[..|writes| - 1]) + writes[|writes| - 1].data
  }

  /** `totalBytes` once the first `k` chunks have been read. */
  function BytesUpTo(chunks: seq<Chunk>, k: nat): nat
    requires k <= |chunks|
  {
    |Flatten(chunks[..k])|
  }

  /** When the write of chunk `k` fires: the later of its read moment and the
      moment the ideal transfer reaches the end of that chunk. */
  function FireTime(start: real, chunks: seq<Chunk>, k: nat): (f: real)
    requires k < |chunks|
    // no write is ever brought forward: the delay is never negative
    ensures f >= chunks[k].readAt
    // no write runs ahead of the ideal transfer curve
    ensures f >= start + ExpectedTime(BytesUpTo(chunks, k + 1))
    // and no write waits longer than it must
    ensures f == chunks[k].readAt || f == start + ExpectedTime(BytesUpTo(chunks, k + 1))
  {
    MaxReal(chunks[k].readAt, start + ExpectedTime(BytesUpTo(chunks, k + 1)))
  }

  /** When `res.end()` fires, for an `end` event at `endEventAt`. */
  function EndTime(start: real, chunks: seq<Chunk>, endEventAt: real): (e: real)
    ensures e >= endEventAt
    ensures e >= start + ExpectedTime(|Flatten(chunks)|)
    ensures e == endEventAt || e == start + ExpectedTime(|Flatten(chunks)|)
  {
    MaxReal(endEventAt, start + ExpectedTime(|Flatten(chunks)|))
  }

  /** The stream handlers of the route: each `data` event adds the chunk to
      `totalBytes` and schedules its write after the pacing delay; the `end`
      event schedules `res.end()` after the same kind of delay. */
  method Stream(start: real, chunks: seq<Chunk>, endEventAt: real) returns (t: Transfer)
    ensures |t.writes| == |chunks|
    ensures forall k :: 0 <= k < |chunks| ==> t.writes[k] == Write(FireTime(start, chunks, k), chunks[k].data)
    ensures t.totalBytes == |Flatten(chunks)|
    ensures Delivered(t.writes) == Flatten(chunks)
    ensures t.endAt == EndTime(start, chunks, endEventAt)
  {
    var writes: seq<Write> := [];
    var totalBytes: nat := 0;
    var i := 0;
    while i < |chunks|
      invariant 0 <= i <= |chunks|
      invariant |writes| == i
      invariant totalBytes == BytesUpTo(chunks, i)
      invariant Delivered(writes) == Flatten(chunks[..i])
      invariant forall k :: 0 <= k < i ==> writes[k] == Write(FireTime(start, chunks, k), chunks[k].data)
    {
      var chunk := chunks[i];
      assert chunks[..i + 1][..i] == chunks[..i];
      totalBytes := totalBytes + |chunk.data|;
      var delay := PaceDelay(start, chunk.readAt, totalBytes);
      DelayLandsOnCurve(start, chunk.readAt, totalBytes);
      var w := Write(chunk.readAt + delay, chunk.data);
      assert w == Write(FireTime(start, chunks, i), chunks[i].data);
      var before := writes;
      writes := writes + [w];
      assert writes[..i] == before;
      i := i + 1;
    }
    assert chunks[..|chunks|] == chunks;
    var delay := PaceDelay(start, endEventAt, totalBytes);
    DelayLandsOnCurve(start, endEventAt, totalBytes);
    t := Transfer(writes, endEventAt + delay, totalBytes);
  }

  lemma BytesUpToStep(chunks: seq<Chunk>, k: nat)
    requires k < |chunks|
    ensures BytesUpTo(chunks, k + 1) == BytesUpTo(chunks, k) + |chunks[k].data|
  {
    assert chunks[..k + 1][..k] == chunks[..k];
  }

  /** `totalBytes` never shrinks as chunks arrive. */
  lemma {:induction false} BytesUpToMonotone(chunks: seq<Chunk>, a: nat, b: nat)
    requires a <= b <= |chunks|
    ensures BytesUpTo(chunks, a) <= BytesUpTo(chunks, b)
    decreases b - a
  {
    if a < b {
      BytesUpToStep(chunks, a);
      BytesUpToMonotone(chunks, a + 1, b);
    }
  }

  /** A larger byte count never reaches the ideal curve earlier. */
  lemma ExpectedTimeMonotone(x: nat, y: nat)
    requires x <= y
    ensures ExpectedTime(x) <= ExpectedTime(y)
  {
  }

  predicate ReadsInOrder(start: real, chunks: seq<Chunk>)
  {
    forall i, j :: 0 <= i < j < |chunks| ==> start <= chunks[i].readAt <= chunks[j].readAt
  }

  /** When chunks are read in order, their writes are scheduled in order too,
      so they reach the client in read order. */
  lemma WritesFireInReadOrder(start: real, chunks: seq<Chunk>, i: nat, j: nat)
    requires ReadsInOrder(start, chunks)
    requires i <= j < |chunks|
    ensures FireTime(start, chunks, i) <= FireTime(start, chunks, j)
  {
    BytesUpToMonotone(chunks, i + 1, j + 1);
    ExpectedTimeMonotone(BytesUpTo(chunks, i + 1), BytesUpTo(chunks, j + 1));
  }

  /** `res.end()` fires no earlier than the last write, provided the `end`
      event comes after the last `data` event. */
  lemma EndAfterLastWrite(start: real, chunks: seq<Chunk>, endEventAt: real)
    requires |chunks| > 0 && chunks[|chunks| - 1].readAt <= endEventAt
    ensures EndTime(start, chunks, endEventAt) >= FireTime(start, chunks, |chunks| - 1)
    ensures EndTime(start, chunks, endEventAt) >= start + ExpectedTime(|Flatten(chunks)|)
  {
    assert chunks[..|chunks|] == chunks;
  }

  /** The bytes among the first `n` chunks whose writes have fired by `tau`. */
  function BytesFiredBy(start: real, chunks: seq<Chunk>, tau: real, n: nat): nat
    requires n <= |chunks|
  {
    if n == 0 then 0
    else
      BytesFiredBy(start, chunks, tau, n - 1)
      + (if FireTime(start, chunks, n - 1) <= tau then |chunks[n - 1].data| else 0)
  }

  /** The rate cap at every instant: the bytes written by any moment `tau`
      never exceed what the throttle rate allows since the stream started,
      whatever the read moments of the chunks. */
  lemma {:induction false} RateCapHolds(start: real, chunks: seq<Chunk>, tau: real, n: nat)
    requires n <= |chunks|
    ensures BytesFiredBy(start, chunks, tau, n) <= BytesUpTo(chunks, n)
    ensures BytesFiredBy(start, chunks, tau, n) as real <= MaxReal(0.0, tau - start) * 512.0
  {
    if n > 0 {
      RateCapHolds(start, chunks, tau, n - 1);
      BytesUpToStep(chunks, n - 1);
      if FireTime(start, chunks, n - 1) <= tau {
        var e := ExpectedTime(BytesUpTo(chunks, n));
        assert start + e <= tau;
        assert e * 512.0 == BytesUpTo(chunks, n) as real;
      }
    }
  }

  /** Worked example: two 64 KiB chunks read at 0 ms and 5 ms of a stream
      started at 0 ms are written at 128 ms and 256 ms, and the response
      ends at 256 ms. */
  lemma PacingExample(d1: seq<Byte>, d2: seq<Byte>)
    requires |d1| == 65536 && |d2| == 65536
    ensures var chunks := [Chunk(0.0, d1), Chunk(5.0, d2)];
            && FireTime(0.0, chunks, 0) == 128.0
            && FireTime(0.0, chunks, 1) == 256.0
            && EndTime(0.0, chunks, 6.0) == 256.0
  {
    var chunks := [Chunk(0.0, d1), Chunk(5.0, d2)];
    assert chunks[..0] == [];
    BytesUpToStep(chunks, 0);
    BytesUpToStep(chunks, 1);
    assert chunks[..2] == chunks;
    assert BytesUpTo(chunks, 2) == 131072;
  }
}

=== FILE: photo_cache.dfy ===
/** The photo cache (`updatePhotoCache`): a directory listing filtered by an
    extension allow-list and mapped to photo records.  The listing and the
    per-file stat results are inputs; a failed `readdirSync` is `None`, a
    failed `statSync` is an entry whose `stat` is `None`. */
module PhotoCache {
  import opened Util

  datatype Stat = Stat(size: nat, mtimeMs: int)

  datatype DirEntry = DirEntry(name: string, stat: Option<Stat>)

  datatype PhotoRecord = PhotoRecord(
    id: string,
    name: string,
    filename: string,
    path: string,
    size: nat,
    lastModified: int)

  /** The alternatives of the file-name pattern, `jpe?g|png|gif|webp`. */
  const Extensions: set<string> := {"jpg", "jpeg", "png", "gif", "webp"}

  /** What the pattern `\.(jpe?g|png|gif|webp)$` with the `i` flag means: some
      dot is followed, up to the end of the name, by one of the alternatives,
      ignoring ASCII case (without the `u` flag no other letter folds onto an
      ASCII one). */
  ghost predicate MatchesPattern(name: string)
  {
    exists k :: 0 <= k < |name| && name[k] == '.' && Lower(name[k + 1..]) in Extensions
  }

  /** `n` ends in a dot followed by `ext`. */
  predicate HasExtension(n: string, ext: string)
  {
    |ext| < |n| && n[|n| - |ext| - 1] == '.' && n[|n| - |ext|..] == ext
  }

  /** The filter as a suffix test on the lower-cased name. */
  function IsImageName(name: string): (b: bool)
    // the shortest picture names are a dot and a three-letter extension
    ensures b ==> |name| >= 4
  {
    var n := Lower(name);
    HasExtension(n, "jpg") || HasExtension(n, "jpeg") || HasExtension(n, "png")
    || HasExtension(n, "gif") || HasExtension(n, "webp")
  }

  lemma LowerIsDot(c: char)
    ensures LowerChar(c) == '.' <==> c == '.'
  {
  }

  /** A name ending in dot-extension matches the pattern at that dot. */
  lemma SuffixMatchesPattern(name: string, ext: string)
    requires ext in Extensions && HasExtension(Lower(name), ext)
    ensures MatchesPattern(name)
  {
    var k := |name| - |ext| - 1;
    LowerAt(name, k);
    LowerIsDot(name[k]);
    LowerSuffix(name, k + 1);
    assert name[k] == '.' && Lower(name[k + 1..]) == ext;
  }

  /** A match of the pattern at dot `k` is a dot-extension suffix. */
  lemma PatternMatchIsSuffix(name: string, k: nat)
    requires k < |name| && name[k] == '.' && Lower(name[k + 1..]) in Extensions
    ensures IsImageName(name)
  {
    var n := Lower(name);
    LowerSuffix(name, k + 1);
    LowerAt(name, k);
    LowerIsDot(name[k]);
    var ext := n[k + 1..];
    assert HasExtension(n, ext);
    assert ext == "jpg" || ext == "jpeg" || ext == "png" || ext == "gif" || ext == "webp";
  }

  lemma ImageNameMatchesPattern(name: string)
    requires IsImageName(name)
    ensures MatchesPattern(name)
  {
    var n := Lower(name);
    if HasExtension(n, "jpg") { SuffixMatchesPattern(name, "jpg"); }
    else if HasExtension(n, "jpeg") { SuffixMatchesPattern(name, "jpeg"); }
    else if HasExtension(n, "png") { SuffixMatchesPattern(name, "png"); }
    else if HasExtension(n, "gif") { SuffixMatchesPattern(name, "gif"); }
    else { SuffixMatchesPattern(name, "webp"); }
  }

  lemma PatternIsImageName(name: string)
    requires MatchesPattern(name)
    ensures IsImageName(name)
  {
    var k :| 0 <= k < |name| && name[k] == '.' && Lower(name[k + 1..]) in Extensions;
    PatternMatchIsSuffix(name, k);
  }

  /** The suffix test decides exactly the pattern. */
  lemma ImageNameIffPattern(name: string)
    ensures IsImageName(name) <==> MatchesPattern(name)
  {
    if IsImageName(name) { ImageNameMatchesPattern(name); }
    if MatchesPattern(name) { PatternIsImageName(name); }
  }

  /** `files.filter(...)`: the entries whose name passes the pattern, in
      listing order. */
  function ImageEntries(entries: seq<DirEntry>): (r: seq<DirEntry>)
    ensures |r| <= |entries|
    ensures forall e :: e in r <==> e in entries && IsImageName(e.name)
  {
    if |entries| == 0 then []
    else if IsImageName(entries[0].name) then [entries[0]] + ImageEntries(entries[1..])
    else ImageEntries(entries[1..])
  }

  /** The filter keeps listing order: filtering a concatenation concatenates
      the filtered parts.  With the one-entry case this pins the filter down. */
  lemma {:induction false} ImageEntriesConcat(a: seq<DirEntry>, b: seq<DirEntry>)
    ensures ImageEntries(a + b) == ImageEntries(a) + ImageEntries(b)
    decreases |a|
  {
    if |a| > 0 {
      assert (a + b)[1..] == a[1..] + b;
      ImageEntriesConcat(a[1..], b);
    } else {
      assert a + b == b;
    }
  }

  lemma ImageEntriesSingle(e: DirEntry)
    ensures ImageEntries([e]) == if IsImageName(e.name) then [e] else []
  {
  }

  /** The record built for one surviving file. */
  function ToRecord(name: string, s: Stat): (r: PhotoRecord)
    ensures WellShaped(r) && r.filename == name
    ensures r.size == s.size && r.lastModified == s.mtimeMs
  {
    PhotoRecord(name, name, name, "/images/" + name, s.size, s.mtimeMs)
  }

  predicate WellShaped(r: PhotoRecord)
  {
    && r.id == r.filename
    && r.name == r.filename
    && r.path == "/images/" + r.filename
  }

  /** Some image file of the listing could not be stat'ed. */
  predicate StatFails(entries: seq<DirEntry>)
  {
    exists e :: e in entries && IsImageName(e.name) && e.stat.None?
  }

  /** The records of image entries that all have a stat result, in order. */
  function RecordsOf(images: seq<DirEntry>): (photos: seq<PhotoRecord>)
    requires forall i :: 0 <= i < |images| ==> images[i].stat.Some?
    ensures |photos| == |images|
    ensures forall i :: 0 <= i < |photos| ==>
              && WellShaped(photos[i])
              && photos[i].filename == images[i].name
              && images[i].stat == Some(Stat(photos[i].size, photos[i].lastModified))
  {
    seq(|images|, i requires 0 <= i < |images| => ToRecord(images[i].name, images[i].stat.value))
  }

  /** One cache rebuild.  Any failure, of the listing or of one stat of a
      surviving file, leaves the empty list (not the previous snapshot). */
  function Rebuild(listing: Option<seq<DirEntry>>): (photos: seq<PhotoRecord>)
    ensures listing.None? ==> photos == []
    ensures listing.Some? && StatFails(listing.value) ==> photos == []
    ensures listing.Some? ==> |photos| <= |listing.value|
    ensures forall i :: 0 <= i < |photos| ==> WellShaped(photos[i]) && IsImageName(photos[i].filename)
    ensures listing.Some? && !StatFails(listing.value) ==>
              && |photos| == |ImageEntries(listing.value)|
              && forall i :: 0 <= i < |photos| ==>
                   && photos[i].filename == ImageEntries(listing.value)[i].name
                   && ImageEntries(listing.value)[i].stat
                        == Some(Stat(photos[i].size, photos[i].lastModified))
  {
    match listing
    case None => []
    case Some(files) =>
      var images := ImageEntries(files);
      if exists e :: e in images && e.stat.None? then []
      else
        assert forall i :: 0 <= i < |images| ==> images[i] in images;
        RecordsOf(images)
  }

  /** A successful rebuild lists exactly the image files of the directory:
      a file is in the snapshot iff its name passes the pattern. */
  lemma RebuildListsExactlyImages(files: seq<DirEntry>, name: string)
    requires !StatFails(files)
    ensures (exists i :: 0 <= i < |Rebuild(Some(files))| && Rebuild(Some(files))[i].filename == name)
            <==> (exists e :: e in files && e.name == name && IsImageName(name))
  {
    var photos := Rebuild(Some(files));
    var images := ImageEntries(files);
    if exists e :: e in files && e.name == name && IsImageName(name) {
      var e :| e in files && e.name == name && IsImageName(name);
      assert e in images;
      var i :| 0 <= i < |images| && images[i] == e;
      assert photos[i].filename == name;
    }
    if exists i :: 0 <= i < |photos| && photos[i].filename == name {
      var i :| 0 <= i < |photos| && photos[i].filename == name;
      assert images[i] in images;
    }
  }

  predicate DistinctNames(entries: seq<DirEntry>)
  {
    forall i, j :: 0 <= i < j < |entries| ==> entries[i].name != entries[j].name
  }

  lemma {:induction false} ImageEntriesKeepDistinct(entries: seq<DirEntry>)
    requires DistinctNames(entries)
    ensures DistinctNames(ImageEntries(entries))
    decreases |entries|
  {
    if |entries| > 0 {
      assert DistinctNames(entries[1..]);
      ImageEntriesKeepDistinct(entries[1..]);
      var rest := ImageEntries(entries[1..]);
      forall e | e in rest
        ensures e.name != entries[0].name
      {
        var j :| 0 <= j < |entries[1..]| && entries[1..][j] == e;
        assert entries[j + 1] == e;
      }
    }
  }

  /** File names are unique in a directory, so they stay unique in the
      snapshot: the file name identifies a photo record. */
  lemma RebuildKeepsNamesUnique(files: seq<DirEntry>)
    requires DistinctNames(files)
    ensures var photos := Rebuild(Some(files));
            forall i, j :: 0 <= i < j < |photos| ==> photos[i].filename != photos[j].filename
  {
    ImageEntriesKeepDistinct(files);
  }

  lemma ExampleNameUpper()
    ensures IsImageName("a.JPG")
  {
    LowerExact("a.JPG", "a.jpg");
    assert HasExtension("a.jpg", "jpg");
  }

  lemma ExampleNameText()
    ensures !IsImageName("notes.txt")
  {
    LowerExact("notes.txt", "notes.txt");
    var n := "notes.txt";
    assert n[|n| - 3..] == "txt";
    assert n[|n| - 4..] == ".txt";
  }

  lemma ExampleNameLower()
    ensures IsImageName("b.webp")
  {
    LowerExact("b.webp", "b.webp");
    assert HasExtension("b.webp", "webp");
  }

  lemma FilterThree(a: DirEntry, t: DirEntry, b: DirEntry)
    requires IsImageName(a.name) && !IsImageName(t.name) && IsImageName(b.name)
    ensures ImageEntries([a, t, b]) == [a, b]
  {
    ImageEntriesConcat([a], [t, b]);
    ImageEntriesConcat([t], [b]);
    assert [a] + [t, b] == [a, t, b];
    assert [t] + [b] == [t, b];
  }

  lemma ExampleFilter(a: DirEntry, t: DirEntry, b: DirEntry)
    requires a == DirEntry("a.JPG", Some(Stat(10, 1)))
    requires t == DirEntry("notes.txt", None)
    requires b == DirEntry("b.webp", Some(Stat(20, 2)))
    ensures ImageEntries([a, t, b]) == [a, b]
    ensures !StatFails([a, t, b])
  {
    ExampleNameUpper();
    ExampleNameText();
    ExampleNameLower();
    FilterThree(a, t, b);
  }

  lemma RebuildThree(a: DirEntry, t: DirEntry, b: DirEntry)
    requires ImageEntries([a, t, b]) == [a, b] && !StatFails([a, t, b])
    requires a.stat.Some? && b.stat.Some?
    ensures Rebuild(Some([a, t, b])) == [ToRecord(a.name, a.stat.value), ToRecord(b.name, b.stat.value)]
  {
    var photos := Rebuild(Some([a, t, b]));
    assert |photos| == 2;
    assert photos[0].filename == a.name && a.stat == Some(Stat(photos[0].size, photos[0].lastModified));
    assert photos[1].filename == b.name && b.stat == Some(Stat(photos[1].size, photos[1].lastModified));
  }

  lemma ExampleRecords()
    ensures ToRecord("a.JPG", Stat(10, 1)) == PhotoRecord("a.JPG", "a.JPG", "a.JPG", "/images/a.JPG", 10, 1)
    ensures ToRecord("b.webp", Stat(20, 2)) == PhotoRecord("b.webp", "b.webp", "b.webp", "/images/b.webp", 20, 2)
  {
    assert "/images/" + "a.JPG" == "/images/a.JPG";
    assert "/images/" + "b.webp" == "/images/b.webp";
  }

  /** Worked example: a mixed listing keeps the pictures, in order, whatever
      the case of their extension, and ignores an unreadable non-picture. */
  lemma RebuildExample(a: DirEntry, t: DirEntry, b: DirEntry)
    requires a == DirEntry("a.JPG", Some(Stat(10, 1)))
    requires t == DirEntry("notes.txt", None)
    requires b == DirEntry("b.webp", Some(Stat(20, 2)))
    ensures Rebuild(Some([a, t, b])) == [
              PhotoRecord("a.JPG", "a.JPG", "a.JPG", "/images/a.JPG", 10, 1),
              PhotoRecord("b.webp", "b.webp", "b.webp", "/images/b.webp", 20, 2)]
  {
    ExampleFilter(a, t, b);
    RebuildThree(a, t, b);
    ExampleRecords();
  }
}

=== FILE: upload.dfy ===
/** The upload rules of `POST /api/upload`: which parts the multipart filter
    accepts and the name each accepted file is stored under. */
module Upload {
  import opened Util
  import PhotoCache

  /** One file part of the multipart body: its form field and multer's
      `file.originalname` and `file.mimetype`, as the multipart parser has
      already normalised them (the MIME type lower-cased and without
      parameters). */
  datatype UploadedFile = UploadedFile(fieldName: string, originalName: string, mimeType: string)

  const UploadPrefix: string := "UPLOAD_"
  const ImageMimePrefix: string := "image/"
  /** The only field `upload.array('photos')` takes files from. */
  const UploadField: string := "photos"

  /** The disk-storage `filename` rule. */
  function StoredName(f: UploadedFile): (r: string)
    ensures StartsWith(r, UploadPrefix)
    ensures EndsWith(r, f.originalName)
    ensures |r| == |UploadPrefix| + |f.originalName|
  {
    UploadPrefix + f.originalName
  }

  /** Recovers the client's file name from a stored name. */
  function OriginalName(stored: string): string
    requires StartsWith(stored, UploadPrefix)
  {
    stored[|UploadPrefix|..]
  }

  /** Storing loses nothing: the client's name comes back from the stored
      one, so two uploads with different names never share a file. */
  lemma StoredNameRoundTrip(f: UploadedFile)
    ensures OriginalName(StoredName(f)) == f.originalName
  {
    assert StoredName(f)[|UploadPrefix|..] == f.originalName;
  }

  lemma StoredNameInjective(f: UploadedFile, g: UploadedFile)
    requires StoredName(f) == StoredName(g)
    ensures f.originalName == g.originalName
  {
    StoredNameRoundTrip(f);
    StoredNameRoundTrip(g);
  }

  /** The `fileFilter` rule: a part is kept iff its already lower-cased
      `file.mimetype` starts with `image/`. */
  function Accepts(f: UploadedFile): (b: bool)
    ensures b <==> exists rest :: f.mimeType == ImageMimePrefix + rest
  {
    assert StartsWith(f.mimeType, ImageMimePrefix) ==> f.mimeType == ImageMimePrefix + f.mimeType[|ImageMimePrefix|..];
    StartsWith(f.mimeType, ImageMimePrefix)
  }

  /** The names under which the `photos` parts of one request are stored, in
      part order (`StoredNamesConcat`); parts the filter rejects are silently
      dropped. */
  function StoredNames(files: seq<UploadedFile>): (names: seq<string>)
    ensures |names| <= |files|
    ensures forall n :: n in names <==> exists f :: f in files && Accepts(f) && n == StoredName(f)
  {
    if |files| == 0 then []
    else
      var rest := StoredNames(files[1..]);
      assert forall f :: f in files[1..] ==> f in files;
      assert forall f :: f in files ==> f == files[0] || f in files[1..];
      if Accepts(files[0]) then [StoredName(files[0])] + rest else rest
  }

  /** The outcome of `POST /api/upload`: the names stored on disk, or an
      aborted request. */
  datatype UploadOutcome = Stored(names: seq<string>) | Aborted

  /** The upload middleware and route: a file part under any field other than
      `photos` makes multer fail the whole request (`LIMIT_UNEXPECTED_FILE`)
      and remove what it already stored; otherwise every accepted part is
      stored under its upload name, in part order. */
  function HandleUpload(files: seq<UploadedFile>): (r: UploadOutcome)
    ensures r.Aborted? <==> exists f :: f in files && f.fieldName != UploadField
    ensures r.Stored? ==> |r.names| <= |files|
    ensures r.Stored? ==> forall n :: n in r.names <==> exists f :: f in files && Accepts(f) && n == StoredName(f)
    ensures r.Stored? ==> r.names == StoredNames(files)
  {
    if exists f :: f in files && f.fieldName != UploadField then Aborted
    else Stored(StoredNames(files))
  }

  /** A single part under a foreign field name costs every picture of the
      request, even one that would have been accepted. */
  lemma ForeignFieldStoresNothing(good: UploadedFile, stray: UploadedFile)
    requires good.fieldName == UploadField && Accepts(good)
    requires stray.fieldName != UploadField
    ensures HandleUpload([good]) == Stored([StoredName(good)])
    ensures HandleUpload([good, stray]) == Aborted
  {
    assert forall f :: f in [good] ==> f == good;
    assert stray in [good, stray];
  }

  /** The stored names keep part order: the names of two batches of parts
      are the names of the first followed by those of the second. */
  lemma {:induction false} StoredNamesConcat(a: seq<UploadedFile>, b: seq<UploadedFile>)
    ensures StoredNames(a + b) == StoredNames(a) + StoredNames(b)
    decreases |a|
  {
    if |a| > 0 {
      assert (a + b)[0] == a[0];
      assert (a + b)[1..] == a[1..] + b;
      StoredNamesConcat(a[1..], b);
    } else {
      assert a + b == b;
    }
  }

  predicate NoDot(s: string)
  {
    forall i :: 0 <= i < |s| ==> s[i] != '.'
  }

  lemma PrefixKeepsMatch(pre: string, n: string)
    requires PhotoCache.MatchesPattern(n)
    ensures PhotoCache.MatchesPattern(pre + n)
  {
    var s := pre + n;
    var k :| 0 <= k < |n| && n[k] == '.' && Lower(n[k + 1..]) in PhotoCache.Extensions;
    assert s[|pre| + k] == '.';
    assert s[|pre| + k + 1..] == n[k + 1..];
  }

  lemma DotlessPrefixAddsNoMatch(pre: string, n: string)
    requires NoDot(pre)
    requires PhotoCache.MatchesPattern(pre + n)
    ensures PhotoCache.MatchesPattern(n)
  {
    var s := pre + n;
    var k :| 0 <= k < |s| && s[k] == '.' && Lower(s[k + 1..]) in PhotoCache.Extensions;
    if k < |pre| {
      assert false;
    }
    assert n[k - |pre|] == '.';
    assert n[k - |pre| + 1..] == s[k + 1..];
  }

  lemma UploadPrefixKeepsMatch(n: string)
    ensures PhotoCache.MatchesPattern(UploadPrefix + n) <==> PhotoCache.MatchesPattern(n)
  {
    assert NoDot(UploadPrefix);
    if PhotoCache.MatchesPattern(n) {
      PrefixKeepsMatch(UploadPrefix, n);
    }
    if PhotoCache.MatchesPattern(UploadPrefix + n) {
      DotlessPrefixAddsNoMatch(UploadPrefix, n);
    }
  }

  /** Prefixing `UPLOAD_` neither makes nor unmakes a picture name: the
      stored file passes the cache filter iff the client's name does. */
  lemma StoredNameKeepsImageness(f: UploadedFile)
    ensures PhotoCache.IsImageName(StoredName(f)) <==> PhotoCache.IsImageName(f.originalName)
  {
    UploadPrefixKeepsMatch(f.originalName);
    PhotoCache.ImageNameIffPattern(f.originalName);
    PhotoCache.ImageNameIffPattern(StoredName(f));
  }

  /** An accepted upload with a picture name appears in the next cache
      rebuild under its stored name, once the directory lists it. */
  lemma UploadedImageAppearsInCache(f: UploadedFile, listing: seq<PhotoCache.DirEntry>, st: PhotoCache.Stat)
    requires Accepts(f) && PhotoCache.IsImageName(f.originalName)
    requires PhotoCache.DirEntry(StoredName(f), Some(st)) in listing
    requires !PhotoCache.StatFails(listing)
    ensures exists i :: 0 <= i < |PhotoCache.Rebuild(Some(listing))|
                        && PhotoCache.Rebuild(Some(listing))[i].filename == StoredName(f)
                        && PhotoCache.Rebuild(Some(listing))[i].path == "/images/UPLOAD_" + f.originalName
  {
    var stored := StoredName(f);
    StoredNameKeepsImageness(f);
    PhotoCache.RebuildListsExactlyImages(listing, stored);
    var photos := PhotoCache.Rebuild(Some(listing));
    var i :| 0 <= i < |photos| && photos[i].filename == stored;
    assert photos[i].path == "/images/" + stored;
    ImagePathOfStored(f.originalName);
  }

  lemma ImagePathOfStored(name: string)
    ensures "/images/" + (UploadPrefix + name) == "/images/UPLOAD_" + name
  {
  }
}

=== FILE: util.dfy ===
/** Small shared vocabulary: optional values, whole-number rounding and
    ASCII text helpers used by every component of the gallery server. */
module Util {

  /** A value that may be absent (a JavaScript `undefined`, a failed call). */
  datatype Option<+T> = None | Some(value: T)

  /** The client a request is attributed to; an opaque key. */
  type ClientId = string

  /** Ceiling of the exact quotient n / d, as `Math.ceil(n / d)` computes it
      on integers that a double represents exactly. */
  function CeilDiv(n: int, d: int): (r: int)
    requires d > 0
    ensures d * (r - 1) < n <= d * r
  {
    -((-n) / d)
  }

  /** `Math.max` on exact reals. */
  function MaxReal(a: real, b: real): (r: real)
    ensures r >= a && r >= b
    ensures r == a || r == b
  {
    if a >= b then a else b
  }

  /** Lower-cases the ASCII letters A-Z and leaves every other character alone. */
  function LowerChar(c: char): (r: char)
    ensures 'A' <= c <= 'Z' ==> r as int == c as int + 32
    ensures !('A' <= c <= 'Z') ==> r == c
  {
    if 'A' <= c <= 'Z' then (c as int + 32) as char else c
  }

  function Lower(s: string): (r: string)
    ensures |r| == |s|
  {
    if |s| == 0 then [] else [LowerChar(s[0])] + Lower(s[1..])
  }

  lemma {:induction false} LowerAt(s: string, i: nat)
    requires i < |s|
    ensures Lower(s)[i] == LowerChar(s[i])
  {
    if i > 0 {
      LowerAt(s[1..], i - 1);
    }
  }

  /** Lower-casing is pinned down character by character. */
  lemma LowerExact(s: string, t: string)
    requires |s| == |t|
    requires forall i :: 0 <= i < |s| ==> LowerChar(s[i]) == t[i]
    ensures Lower(s) == t
  {
    forall i | 0 <= i < |s|
      ensures Lower(s)[i] == t[i]
    {
      LowerAt(s, i);
    }
  }

  /** Lower-casing commutes with dropping a prefix. */
  lemma {:induction false} LowerSuffix(s: string, k: nat)
    requires k <= |s|
    ensures Lower(s[k..]) == Lower(s)[k..]
  {
    if k > 0 {
      assert s[k..] == s[1..][k - 1..];
      LowerSuffix(s[1..], k - 1);
    }
  }

  predicate StartsWith(s: string, prefix: string)
  {
    |prefix| <= |s| && s[..|prefix|] == prefix
  }

  predicate EndsWith(s: string, suffix: string)
  {
    |suffix| <= |s| && s[|s| - |suffix|..] == suffix
  }
}
